=== FILE: README.md ===
# apihub-op-group-creator, modelled in Dafny

The tool lists the API operations of a package version on an APIHUB
documentation service, keeps those whose custom tag carries a target value,
(re)creates a named operation group, sets the group's membership to the
selected operations, then starts an export of the group and polls until the
exported document can be written to `<group>.<format>`.

The model keeps the decision logic of `main.go` and replaces the service by
scripts of abstract answers:

- `wrappers.dfy` — `Option` and `Result`.
- `types.dfy` — operations, the dynamic shapes of a tag value (string,
  `[]string`, `[]interface{}`, anything else), operation references and the
  failure kinds.
- `filter.dfy` — `filterOperations`: the tag-match test, its normalised-set
  reading, the filtering loop with its inner searches, and the lemmas that the
  result is exactly the kept operations as an order-preserving subsequence.
- `lister.dfy` — `listOperations`: the page loop over a scripted sequence of
  page answers, proved against a reference function, with the shape of every
  listing (pages requested 0, 1, 2, … ; all but the last full; success exactly
  when the last decoded; result the concatenation).
- `groups.dfy` — the status mappings of `groupExists`, `deleteGroup`,
  `createGroup`, `updateGroupOperations`, and the reference payload filled by
  index.
- `export.dfy` — `startExport`'s acknowledgement, `getExportStatus`'s
  classification of an answer by status code and content type, and the
  bounded poll loop of `waitAndSaveExport`.
- `pipeline.dfy` — `main`: argument validation, the output path, and the run
  as a trace of calls made to the service, with ordering and
  failure-propagation lemmas.

Answers of the service are parameters: `pages[i]` answers the request for
page `i`, `polls[i]` the `i`-th status query, and one answer each the group
probe, delete, create, membership update and export start. A request past the
end of a script gets no answer, which the code treats as a transport failure;
this is also what makes the page loop finite. Writing the exported file is
the result `Ok(data)` of the poll loop and the `File` of a successful run.

Two behaviours of `main.go` that are easy to misread:

- An empty raw export body is still written: the loop tests only
  `fileData != nil` (main.go:404), and reading a body yields an empty,
  non-nil slice. Only a JSON status object saying `completed` fails with
  "export data is empty" (`Export.EmptyArtifactWritten`,
  `Export.CompletedWithoutData`).
- The membership payload is not deduplicated: it has one reference per
  selected operation. `Pipeline.MembershipPayload` proves that the
  identifiers stay distinct when the listing's are.

## Model

| member | source | states |
|---|---|---|
| `Filter.FilterOperations` | main.go:185-218 | the loop with its inner `found` searches returns exactly `Filter(ops, key, target)` |
| `Filter.MatchesIffTagStrings` | main.go:194-211 | the shape-by-shape tag test holds exactly when the target is in the set of strings the tag value holds |
| `Filter.ShapesAgree` | main.go:194-211 | a string matches as the one-element list holding it; a mixed list matches as the list of its string elements; non-string elements never change the outcome |
| `Filter.FilterSelectsKeptInOrder` | main.go:186-217 | the result is the input at the kept positions, in increasing order (an order-preserving subsequence), and a position is kept exactly when its operation has a matching entry under the key |
| `Filter.FilterMembership` | main.go:187-215 | an operation is in the result iff it is in the input and kept; one without an entry under the key never is (silently) |
| `Filter.FilterEmptyIffNoneKept` | main.go:185-218 | the result is empty exactly when no operation is kept, including the empty input |
| `Filter.FilterKeepsDistinct` | main.go:185-218 | distinct identifiers in the input remain distinct in the result |
| `Filter.FilterDependsOnlyOnTagStrings` | main.go:194-211 | two listings whose tag values differ only in representation select the same identifiers |
| `Lister.ListOperations` | main.go:147-183 | the page loop returns exactly the reference listing `ListFrom(pages, 0)`: its result and the pages it requested |
| `Lister.ListFromShape` | main.go:149-181 | pages are requested as p, p+1, … in order; every page but the last was full and the last was not; success iff the last decoded with status 200, and then the result is the concatenation of all requested pages |
| `Lister.FullPagesThenShort` | main.go:176-180 | k full pages followed by a short one take k+1 requests and yield their concatenation |
| `Lister.ListAbortsOnFailedPage` | main.go:167-174 | a requested page with a status other than 200 or an undecodable body is the last request and the listing fails |
| `Groups.GroupExists` | main.go:236-241 | 200 gives true, 404 gives false, any other status an error carrying it, no answer a transport error |
| `Groups.DeleteGroup` | main.go:260-264 | delete succeeds exactly on 204 |
| `Groups.CreateGroup` | main.go:293-297 | create succeeds exactly on 201 |
| `Groups.UpdateGroupOperations` | main.go:339-343 | the membership update succeeds exactly on 204 |
| `Groups.OperationRefs` | main.go:305-308 | the payload has the length of the operation list and reference i carries the identifier of operation i |
| `Export.StartExport` | main.go:377-389 | the export start succeeds exactly on 202 with a decoded export id, and returns that id |
| `Export.GetExportStatus` | main.go:437-459 | no answer is a transport error and a status other than 200 an error carrying it; a 200 with a JSON content type gives `Malformed` when the body does not decode, the service's message when the status is `error`, and otherwise the decoded status without data; a 200 with any other content type gives status `completed` with the raw body, or a transport error when the body cannot be read |
| `Export.VerdictWaitsIff` | main.go:402-415 | the loop waits on an answer exactly when it is a 200 JSON status object that decodes to a status other than `completed` and `error` |
| `Export.WaitAndSaveExport` | main.go:392-419 | the counted loop returns exactly the reference `PollFrom(polls, 0)`: outcome and number of queries |
| `Export.VerdictNeverExportFailed` | main.go:409-410 | the classification never returns status `error`, so the `case "error"` branch is never taken |
| `Export.VerdictWritesOnlyRawBody` | main.go:403-405 | an answer ends the loop with a write of `data` iff it is a 200 with a non-JSON content type whose body is `data` |
| `Export.PollShape` | main.go:396-418 | at most 30 queries; a timeout happens exactly when every answer said to wait; otherwise the last answer decided the outcome and every earlier one said to wait |
| `Export.PollNeverExportFailed` | main.go:392-419 | between 1 and 30 queries, never "export failed", and a write carries the body of the last query's answer |
| `Export.PollTimesOut` | main.go:396-418 | 30 waiting answers give a timeout after 30 queries and no write |
| `Export.PollPropagatesQueryError` | main.go:397-400 | a failing status query ends the wait with that error after k+1 queries |
| `Export.JsonWithParameters` | main.go:442-453 | a content type made of `application/json` followed by any parameters is taken as JSON, and a 200 answer carrying it is classified as a status object: `Malformed`, the service's message, or the decoded status without data |
| `Export.PendingPendingCompleted` | main.go:396-405 | pending, pending, artifact: 3 queries and the artifact written verbatim |
| `Export.ServiceErrorSurfaces` | main.go:448-449 | a status object `error` with message m fails at once with an error whose text ends in m, and nothing is written |
| `Export.CompletedWithoutData` | main.go:403-408 | the status object `completed` fails with "export data is empty" |
| `Export.EmptyArtifactWritten` | main.go:455-459 | an empty raw body is written as an empty file |
| `Types.Describe` | main.go:448-449 | the text of a service-reported error ends with the service's message |
| `Pipeline.ValidateArgs` | main.go:71-81 | valid iff all seven required arguments are non-empty and the format is yaml or json; missing arguments are reported before a bad format |
| `Pipeline.OutputPath` | main.go:139 | the path is the group name, a dot, then the format |
| `Pipeline.Execute` | main.go:83-144 | the body of `main` ends and calls the service exactly as the reference run `ReferenceRun(args, env)` |
| `Pipeline.EmptyFilterShortCircuits` | main.go:96-99 | an empty filter result ends the run successfully with only page requests made |
| `Pipeline.DeleteOnlyWhenForcedAndPresent` | main.go:102-114 | a delete is issued iff the arguments are valid, the listing succeeded, the filter selected something, `force` is set and the probe answered 200 |
| `Pipeline.PipelineOrdered` | main.go:101-140 | calls follow the order list, probe, delete, create, set membership, start export, status queries, and each group call occurs at most once; moreover the trace starts with page 0 and every call follows the one `main` must make right before it, whose answer let the run go on (`Follows`): the next page after a full one, the probe only with `force`, right after the last page of a listing that selected something, delete right after a probe that found the group, create right after the last page of a listing that selected something (without `force`), a probe that did not find the group or a successful delete, set membership right after a successful create, start export in the chosen format right after a successful membership update, status query 0 right after an accepted export start and query k+1 right after query k, all with the id the start returned |
| `Pipeline.MandatoryPredecessors` | main.go:102-140 | a delete is preceded by a probe that found the group, a membership update by a successful create, an export start by a successful membership update, and a status query by an export start that returned its id |
| `Pipeline.FailureStopsLaterCalls` | main.go:84-143 | every call but the last was answered so that the run could continue; a failed run (other than a timeout) ends with the call whose answer failed it |
| `Pipeline.MembershipPayload` | main.go:124 | the payload sent is the projection of the filtered listing, and repeats no identifier when the listing repeats none |
| `Pipeline.WrittenFile` | main.go:138-144 | a written file is named `<group>.yaml` or `<group>.json` and holds exactly the artifact of the completed export; a successful run without a file means the filter selected nothing |
| `Pipeline.ForcedRecreation` | main.go:102-140 | with `force`, an existing group and every call succeeding, the trace is the page requests, then probe, delete, create, set membership, start export once each in that order, then the status queries |

## Left out

- HTTP request construction and sending, headers, the access token, URL formatting and `url.PathEscape`: network I/O. Each call is reduced to the answer it gets.
- JSON and multipart encoding and decoding: library code. Whether a body decodes, and to what, is part of the scripted answer.
- The texts the source prints for some errors: the status code and response body it inserts into its "unexpected status" messages, and the library's own error text for a failed request, an unreadable body or a body that does not decode (main.go:163, 173 and the other call sites). `Types.Describe` keeps the source's fixed texts and gives placeholders for `Transport`, `Malformed` and `UnexpectedStatus`.
- `time.Sleep` and the 5-second poll interval: timing has no effect on the outcome beyond the attempt count.
- `os.WriteFile` and its failure: the write is the result of the run; a failing write is not modelled.
- Logging, `flag` parsing and `os.Exit` codes: the run ends in `Done` or `Failed`.
- The export request body: neither its fixed fields (entity kind, transformation mode, extension stripping) nor the package id, version and group name it repeats from the arguments are modelled; only the format is recorded, in `CallStartExport`.
- A service that answers full pages forever: the script is finite, so the model cannot express the source's unbounded page loop.

=== FILE: export.dfy ===
/** Starting an export of the group and waiting for it (`startExport`,
    `getExportStatus`, `waitAndSaveExport`). The status endpoint is a finite
    script: `polls[i]` is its answer to the `i`-th status query; a query past
    the end of the script gets no answer. */
module Export {
  import opened Wrappers
  import opened Types

  newtype byte = x: int | 0 <= x < 256

  /** The bound on status queries (`maxAttempts`). */
  const MaxAttempts := 30
  const JsonContentType := "application/json"

  /** The JSON status object of a pending or failed export. */
  datatype StatusBody = StatusBody(status: string, message: string)

  /** The answer to a status query: none at all, or a status code, the
      Content-Type header, what the body decodes to as a status object
      (`None` if it does not decode) and the raw body (`None` if it could not
      be read). */
  datatype StatusReply =
    | NoStatusReply
    | StatusHttp(code: int, contentType: string, decoded: Option<StatusBody>, raw: Option<seq<byte>>)

  /** The status of an export as `getExportStatus` returns it: the status text
      and, once the export is done, the artifact. */
  datatype ExportState = ExportState(status: string, data: Option<seq<byte>>)

  /** The answer to the export request: none, or a status code and the
      decoded `exportId` (`None` if the body does not decode). */
  datatype StartReply = NoStartReply | StartHttp(code: int, exportId: Option<string>)

  /** `strings.Contains`: `sub` occurs somewhere in `s`. */
  predicate Contains(s: string, sub: string)
    decreases |s|
  {
    if |sub| > |s| then false
    else if s[..|sub|] == sub then true
    else Contains(s[1..], sub)
  }

  /** The export request is accepted with 202 and an export identifier. */
  function StartExport(reply: StartReply): (r: Result<string, Error>)
    ensures r.Ok? <==> reply.StartHttp? && reply.code == StatusAccepted && reply.exportId.Some?
    ensures r.Ok? ==> r.value == reply.exportId.value
    ensures r.Err? && reply.StartHttp? && reply.code != StatusAccepted ==> r.error == UnexpectedStatus(reply.code)
  {
    match reply
    case NoStartReply => Err(Transport)
    case StartHttp(code, id) =>
      if code != StatusAccepted then Err(UnexpectedStatus(code))
      else if id.None? then Err(Malformed)
      else Ok(id.value)
  }

  /** The classification of one status answer: a status other than 200 is an
      error; a JSON content type yields the decoded status, where "error"
      becomes an error carrying the service's message; any other content type
      means the body is the finished artifact. */
  function GetExportStatus(reply: StatusReply): (r: Result<ExportState, Error>)
    ensures reply.NoStatusReply? ==> r == Err(Transport)
    ensures reply.StatusHttp? && reply.code != StatusOK ==> r == Err(UnexpectedStatus(reply.code))
    ensures reply.StatusHttp? && reply.code == StatusOK && Contains(reply.contentType, JsonContentType) ==>
              r == (if reply.decoded.None? then Err(Malformed)
                    else if reply.decoded.value.status == "error" then Err(ServiceReported(reply.decoded.value.message))
                    else Ok(ExportState(reply.decoded.value.status, None)))
    ensures reply.StatusHttp? && reply.code == StatusOK && !Contains(reply.contentType, JsonContentType) ==>
              r == (if reply.raw.None? then Err(Transport) else Ok(ExportState("completed", reply.raw)))
  {
    match reply
    case NoStatusReply => Err(Transport)
    case StatusHttp(code, contentType, decoded, raw) =>
      if code != StatusOK then Err(UnexpectedStatus(code))
      else if Contains(contentType, JsonContentType) then
        if decoded.None? then Err(Malformed)
        else if decoded.value.status == "error" then Err(ServiceReported(decoded.value.message))
        else Ok(ExportState(decoded.value.status, None))
      else if raw.None? then Err(Transport)
      else Ok(ExportState("completed", raw))
  }

  /** What the poll loop makes of one answer: `None` to wait and ask again,
      or the outcome that ends the loop (`Ok(data)`: `data` is written to the
      output file). */
  function Verdict(reply: StatusReply): Option<Result<seq<byte>, Error>>
  {
    match GetExportStatus(reply)
    case Err(e) => Some(Err(e))
    case Ok(st) =>
      if st.status == "completed" then
        Some(if st.data.Some? then Ok(st.data.value) else Err(ExportDataEmpty))
      else if st.status == "error" then Some(Err(ExportFailed))
      else None
  }

  /** The loop waits on an answer exactly when it is a 200 JSON status object
      that decodes to a status other than "completed" and "error" (such as
      "none" or "pending"). */
  lemma VerdictWaitsIff(reply: StatusReply)
    ensures Verdict(reply).None? <==>
              reply.StatusHttp? && reply.code == StatusOK && Contains(reply.contentType, JsonContentType) &&
              reply.decoded.Some? && reply.decoded.value.status !in {"completed", "error"}
  {
  }

  function StatusAt(polls: seq<StatusReply>, attempt: nat): StatusReply
  {
    if attempt < |polls| then polls[attempt] else NoStatusReply
  }

  /** The outcome of waiting and the number of status queries made. */
  datatype Polling = Polling(result: Result<seq<byte>, Error>, queries: nat)

  /** Waiting from query `attempt` on: stop at the first answer that ends the
      loop, time out once `MaxAttempts` queries were made. */
  function PollFrom(polls: seq<StatusReply>, attempt: nat): Polling
    decreases MaxAttempts - attempt
  {
    if attempt >= MaxAttempts then Polling(Err(TimedOut(MaxAttempts)), MaxAttempts)
    else
      var made: nat := attempt + 1;
      match Verdict(StatusAt(polls, attempt))
      case Some(outcome) => Polling(outcome, made)
      case None => PollFrom(polls, made)
  }

  /** The counted loop of `waitAndSaveExport`. */
  method WaitAndSaveExport(polls: seq<StatusReply>) returns (r: Result<seq<byte>, Error>, queries: nat)
    ensures Polling(r, queries) == PollFrom(polls, 0)
  {
    queries := 0;
    for attempt := 0 to MaxAttempts
      invariant queries == attempt
      invariant PollFrom(polls, attempt) == PollFrom(polls, 0)
    {
      queries := attempt + 1;
      var st := GetExportStatus(StatusAt(polls, attempt));
      if st.Err? {
        r := Err(st.error);
        return;
      }
      var status, fileData := st.value.status, st.value.data;
      if status == "completed" {
        if fileData.Some? {
          r := Ok(fileData.value);
        } else {
          r := Err(ExportDataEmpty);
        }
        return;
      } else if status == "error" {
        r := Err(ExportFailed);
        return;
      }
    }
    r := Err(TimedOut(MaxAttempts));
  }

  /** The `case "error"` of the poll loop is never taken: the classification
      already turned that status into an error, and nothing else ends the
      loop with a timeout either. */
  lemma VerdictNeverExportFailed(reply: StatusReply)
    ensures GetExportStatus(reply).Ok? ==> GetExportStatus(reply).value.status != "error"
    ensures Verdict(reply) != Some(Err(ExportFailed))
    ensures Verdict(reply) != Some(Err(TimedOut(MaxAttempts)))
  {
  }

  /** Only a 200 answer with a non-JSON content type and a readable body ends
      the loop with a write, and it writes that body verbatim. */
  lemma VerdictWritesOnlyRawBody(reply: StatusReply, data: seq<byte>)
    ensures Verdict(reply) == Some(Ok(data)) <==>
              reply.StatusHttp? && reply.code == StatusOK &&
              !Contains(reply.contentType, JsonContentType) && reply.raw == Some(data)
  {
  }

  /** The course of the poll loop from query `a`: it makes at most
      `MaxAttempts` queries in all; it times out exactly when every remaining
      answer said to wait; otherwise the last answer decided the outcome and
      every earlier one said to wait. */
  lemma {:induction false} PollShape(polls: seq<StatusReply>, a: nat)
    requires a <= MaxAttempts
    ensures var p := PollFrom(polls, a);
      a <= p.queries <= MaxAttempts &&
      (p.result == Err(TimedOut(MaxAttempts)) <==>
         forall i :: a <= i < MaxAttempts ==> Verdict(StatusAt(polls, i)).None?) &&
      (p.result == Err(TimedOut(MaxAttempts)) ==> p.queries == MaxAttempts) &&
      (p.result != Err(TimedOut(MaxAttempts)) ==>
         a < p.queries && Verdict(StatusAt(polls, p.queries - 1)) == Some(p.result) &&
         forall i :: a <= i < p.queries - 1 ==> Verdict(StatusAt(polls, i)).None?)
    decreases MaxAttempts - a
  {
    if a < MaxAttempts {
      VerdictNeverExportFailed(StatusAt(polls, a));
      if Verdict(StatusAt(polls, a)).None? {
        PollShape(polls, a + 1);
        assert PollFrom(polls, a) == PollFrom(polls, a + 1);
      } else {
        assert PollFrom(polls, a) == Polling(Verdict(StatusAt(polls, a)).value, a + 1);
      }
    }
  }

  /** The queries of the loop: at least one; all but the last said to wait,
      and the last ended the loop unless it timed out. */
  lemma PollQueries(polls: seq<StatusReply>)
    ensures var p := PollFrom(polls, 0);
      1 <= p.queries &&
      (forall i :: 0 <= i < p.queries - 1 ==> Verdict(StatusAt(polls, i)).None?) &&
      (p.result != Err(TimedOut(MaxAttempts)) ==> Verdict(StatusAt(polls, p.queries - 1)).Some?)
  {
    PollShape(polls, 0);
  }

  /** The loop never fails with "export failed", and a write happens only for
      the last of its queries, with that answer's body. */
  lemma PollNeverExportFailed(polls: seq<StatusReply>)
    ensures PollFrom(polls, 0).result != Err(ExportFailed)
    ensures 1 <= PollFrom(polls, 0).queries <= MaxAttempts
    ensures PollFrom(polls, 0).result.Ok? ==>
              StatusAt(polls, PollFrom(polls, 0).queries - 1).StatusHttp? &&
              StatusAt(polls, PollFrom(polls, 0).queries - 1).raw == Some(PollFrom(polls, 0).result.value)
  {
    PollShape(polls, 0);
    var p := PollFrom(polls, 0);
    if p.result != Err(TimedOut(MaxAttempts)) {
      VerdictNeverExportFailed(StatusAt(polls, p.queries - 1));
      if p.result.Ok? {
        VerdictWritesOnlyRawBody(StatusAt(polls, p.queries - 1), p.result.value);
      }
    }
  }

  /** Thirty answers that all say to wait give a timeout after thirty
      queries, and nothing is written. */
  lemma PollTimesOut(polls: seq<StatusReply>)
    requires forall i :: 0 <= i < MaxAttempts ==> Verdict(StatusAt(polls, i)).None?
    ensures PollFrom(polls, 0) == Polling(Err(TimedOut(MaxAttempts)), MaxAttempts)
  {
    PollShape(polls, 0);
  }

  /** A status query that fails (or reports "error") ends the wait with that
      very error, after the queries that preceded it. */
  lemma PollPropagatesQueryError(polls: seq<StatusReply>, k: nat, e: Error)
    requires k < MaxAttempts
    requires forall i :: 0 <= i < k ==> Verdict(StatusAt(polls, i)).None?
    requires GetExportStatus(StatusAt(polls, k)) == Err(e)
    ensures PollFrom(polls, 0) == Polling(Err(e), k + 1)
  {
    PollShape(polls, 0);
    var p := PollFrom(polls, 0);
    VerdictNeverExportFailed(StatusAt(polls, k));
  }

  /** A content type that starts with `application/json` and goes on with
      parameters (such as `; charset=utf-8`) is taken as JSON: a 200 answer
      carrying it is read as a status object. */
  lemma JsonWithParameters(params: string, decoded: Option<StatusBody>, raw: Option<seq<byte>>)
    ensures Contains(JsonContentType + params, JsonContentType)
    ensures var reply := StatusHttp(StatusOK, JsonContentType + params, decoded, raw);
      GetExportStatus(reply) ==
        (if decoded.None? then Err(Malformed)
         else if decoded.value.status == "error" then Err(ServiceReported(decoded.value.message))
         else Ok(ExportState(decoded.value.status, None)))
  {
    assert (JsonContentType + params)[..|JsonContentType|] == JsonContentType;
  }

  /** Two pending answers followed by the artifact: three queries, and the
      artifact is written verbatim. */
  lemma PendingPendingCompleted(json: string, other: string, data: seq<byte>)
    requires Contains(json, JsonContentType) && !Contains(other, JsonContentType)
    ensures var pending := StatusHttp(StatusOK, json, Some(StatusBody("pending", "")), None);
      PollFrom([pending, pending, StatusHttp(StatusOK, other, None, Some(data))], 0) == Polling(Ok(data), 3)
  {
    var pending := StatusHttp(StatusOK, json, Some(StatusBody("pending", "")), None);
    var polls := [pending, pending, StatusHttp(StatusOK, other, None, Some(data))];
    assert Verdict(StatusAt(polls, 0)) == None;
    assert Verdict(StatusAt(polls, 1)) == None;
    assert Verdict(StatusAt(polls, 2)) == Some(Ok(data));
  }

  /** A status object reporting "error" with message `m` ends the wait at
      once with an error whose text carries `m`; nothing is written. */
  lemma ServiceErrorSurfaces(json: string, m: string, raw: Option<seq<byte>>, later: seq<StatusReply>)
    requires Contains(json, JsonContentType)
    ensures var polls := [StatusHttp(StatusOK, json, Some(StatusBody("error", m)), raw)] + later;
      PollFrom(polls, 0) == Polling(Err(ServiceReported(m)), 1) &&
      |m| <= |Describe(ServiceReported(m))| &&
      Describe(ServiceReported(m))[|Describe(ServiceReported(m))| - |m|..] == m
  {
    var polls := [StatusHttp(StatusOK, json, Some(StatusBody("error", m)), raw)] + later;
    assert StatusAt(polls, 0) == StatusHttp(StatusOK, json, Some(StatusBody("error", m)), raw);
  }

  /** The status object "completed" carries no artifact: the wait fails with
      "export data is empty". */
  lemma CompletedWithoutData(json: string, later: seq<StatusReply>)
    requires Contains(json, JsonContentType)
    ensures var polls := [StatusHttp(StatusOK, json, Some(StatusBody("completed", "")), None)] + later;
      PollFrom(polls, 0) == Polling(Err(ExportDataEmpty), 1)
  {
    var polls := [StatusHttp(StatusOK, json, Some(StatusBody("completed", "")), None)] + later;
    assert StatusAt(polls, 0) == polls[0];
  }

  /** An artifact body that is present but empty is still written: the loop
      tests for a missing body, not for an empty one. */
  lemma EmptyArtifactWritten(other: string, later: seq<StatusReply>)
    requires !Contains(other, JsonContentType)
    ensures PollFrom([StatusHttp(StatusOK, other, None, Some([]))] + later, 0) == Polling(Ok([]), 1)
  {
    var polls := [StatusHttp(StatusOK, other, None, Some([]))] + later;
    assert StatusAt(polls, 0) == polls[0];
  }
}

=== FILE: filter.dfy ===
/** Selecting the operations whose custom tag carries a target value
    (`filterOperations`). */
module Filter {
  import opened Types

  /** The tag-match test of the source, shape by shape: a string matches when
      it equals the target, a list when one of its string elements does;
      non-string elements and every other value are ignored. */
  predicate Matches(val: TagValue, target: string)
  {
    match val
    case Str(v) => v == target
    case StrList(vs) => target in vs
    case AnyList(es) => StrElem(target) in es
    case Other => false
  }

  /** The tag value normalised to the set of strings it holds. */
  function TagStrings(val: TagValue): set<string>
  {
    match val
    case Str(v) => {v}
    case StrList(vs) => set s | s in vs
    case AnyList(es) => set e | e in es && e.StrElem? :: e.s
    case Other => {}
  }

  /** The string elements of a heterogeneous list, in order. */
  function Strings(es: seq<Elem>): seq<string>
  {
    if es == [] then []
    else Strings(es[..|es| - 1]) + (if es[|es| - 1].StrElem? then [es[|es| - 1].s] else [])
  }

  /** Whether the filter keeps `op`: it has an entry under `key` and that entry
      matches. */
  predicate Keep(op: Operation, key: string, target: string)
  {
    key in op.customTags && Matches(op.customTags[key], target)
  }

  /** The operations that are kept, in input order. */
  function Filter(ops: seq<Operation>, key: string, target: string): seq<Operation>
  {
    if ops == [] then []
    else
      var last := ops[|ops| - 1];
      Filter(ops[..|ops| - 1], key, target) + (if Keep(last, key, target) then [last] else [])
  }

  /** The positions of the kept operations, ascending. */
  function KeptPositions(ops: seq<Operation>, key: string, target: string): seq<nat>
  {
    if ops == [] then []
    else
      KeptPositions(ops[..|ops| - 1], key, target)
        + (if Keep(ops[|ops| - 1], key, target) then [|ops| - 1] else [])
  }

  /** The loop of `filterOperations`, with the inner `found` searches over the
      two list shapes. */
  method FilterOperations(ops: seq<Operation>, key: string, target: string)
    returns (filtered: seq<Operation>)
    ensures filtered == Filter(ops, key, target)
  {
    filtered := [];
    for i := 0 to |ops|
      invariant filtered == Filter(ops[..i], key, target)
    {
      assert ops[..i + 1][..i] == ops[..i];
      var op := ops[i];
      if key !in op.customTags {
        continue;
      }
      var val := op.customTags[key];
      var found := false;
      match val {
        case Str(v) =>
          found := v == target;
        case StrList(vs) =>
          for j := 0 to |vs|
            invariant !found
            invariant forall k :: 0 <= k < j ==> vs[k] != target
          {
            if vs[j] == target {
              found := true;
              break;
            }
          }
        case AnyList(es) =>
          for j := 0 to |es|
            invariant !found
            invariant forall k :: 0 <= k < j ==> es[k] != StrElem(target)
          {
            if es[j].StrElem? && es[j].s == target {
              found := true;
              break;
            }
          }
        case Other =>
      }
      assert found == Matches(val, target);
      if found {
        filtered := filtered + [op];
      }
    }
    assert ops[..|ops|] == ops;
  }

  /** The shape-by-shape test agrees with membership in the normalised set. */
  lemma MatchesIffTagStrings(val: TagValue, target: string)
    ensures Matches(val, target) <==> target in TagStrings(val)
  {
    match val
    case AnyList(es) =>
      if target in TagStrings(val) {
        var e :| e in es && e.StrElem? && e.s == target;
        assert e == StrElem(target);
      }
    case _ =>
  }

  lemma {:induction false} StringsMembership(es: seq<Elem>, target: string)
    ensures target in Strings(es) <==> StrElem(target) in es
  {
    if es != [] {
      var init := es[..|es| - 1];
      assert es == init + [es[|es| - 1]];
      StringsMembership(init, target);
    }
  }

  /** The three shapes agree: a string matches exactly as the one-element list
      holding it, and a mixed list matches exactly as the list of its string
      elements, whatever non-strings it also holds. */
  lemma ShapesAgree(v: string, es: seq<Elem>, target: string)
    ensures Matches(Str(v), target) == Matches(StrList([v]), target)
    ensures Matches(AnyList(es), target) == Matches(StrList(Strings(es)), target)
    ensures Matches(AnyList(es + [NonStr]), target) == Matches(AnyList(es), target)
  {
    StringsMembership(es, target);
  }

  /** The filter result lists exactly the kept operations, each at the
      position of the input it comes from, in increasing order of those
      positions: an order-preserving subsequence. */
  lemma {:induction false} FilterSelectsKeptInOrder(ops: seq<Operation>, key: string, target: string)
    ensures |KeptPositions(ops, key, target)| == |Filter(ops, key, target)|
    ensures forall k :: 0 <= k < |Filter(ops, key, target)| ==>
              KeptPositions(ops, key, target)[k] < |ops| &&
              Filter(ops, key, target)[k] == ops[KeptPositions(ops, key, target)[k]]
    ensures forall k, l :: 0 <= k < l < |KeptPositions(ops, key, target)| ==>
              KeptPositions(ops, key, target)[k] < KeptPositions(ops, key, target)[l]
    ensures forall i :: 0 <= i < |ops| ==> (i in KeptPositions(ops, key, target) <==> Keep(ops[i], key, target))
  {
    if ops != [] {
      var init := ops[..|ops| - 1];
      FilterSelectsKeptInOrder(init, key, target);
      assert forall i :: 0 <= i < |init| ==> init[i] == ops[i];
    }
  }

  /** An operation is in the result exactly when it is in the input and kept;
      in particular one without an entry under the key never is. */
  lemma FilterMembership(ops: seq<Operation>, key: string, target: string, op: Operation)
    ensures op in Filter(ops, key, target) <==> op in ops && Keep(op, key, target)
    ensures key !in op.customTags ==> op !in Filter(ops, key, target)
  {
    FilterSelectsKeptInOrder(ops, key, target);
    var r, idx := Filter(ops, key, target), KeptPositions(ops, key, target);
    if op in r {
      var k :| 0 <= k < |r| && r[k] == op;
      assert idx[k] in idx;
    }
    if op in ops && Keep(op, key, target) {
      var i :| 0 <= i < |ops| && ops[i] == op;
      var k :| 0 <= k < |idx| && idx[k] == i;
      assert r[k] == op;
    }
  }

  /** The result is empty exactly when no operation is kept: an empty input,
      or no operation with a matching entry under the key. */
  lemma {:induction false} FilterEmptyIffNoneKept(ops: seq<Operation>, key: string, target: string)
    ensures Filter(ops, key, target) == [] <==> forall i :: 0 <= i < |ops| ==> !Keep(ops[i], key, target)
  {
    if ops != [] {
      var init := ops[..|ops| - 1];
      FilterEmptyIffNoneKept(init, key, target);
      assert forall i :: 0 <= i < |init| ==> init[i] == ops[i];
    }
  }

  /** Distinct identifiers in the listing stay distinct after filtering. */
  lemma FilterKeepsDistinct(ops: seq<Operation>, key: string, target: string)
    requires Distinct(Ids(ops))
    ensures Distinct(Ids(Filter(ops, key, target)))
  {
    FilterSelectsKeptInOrder(ops, key, target);
    var r, idx := Filter(ops, key, target), KeptPositions(ops, key, target);
    forall k, l | 0 <= k < l < |r| ensures r[k].operationId != r[l].operationId {
      assert Ids(ops)[idx[k]] != Ids(ops)[idx[l]];
    }
  }

  /** Two listings that differ only in how tag values are represented (same
      identifiers, same presence of the key, same normalised strings under it)
      select the same identifiers. */
  lemma {:induction false} FilterDependsOnlyOnTagStrings(ops1: seq<Operation>, ops2: seq<Operation>, key: string, target: string)
    requires |ops1| == |ops2|
    requires forall i :: 0 <= i < |ops1| ==> ops1[i].operationId == ops2[i].operationId
    requires forall i :: 0 <= i < |ops1| ==> (key in ops1[i].customTags <==> key in ops2[i].customTags)
    requires forall i :: 0 <= i < |ops1| && key in ops1[i].customTags && key in ops2[i].customTags ==>
               TagStrings(ops1[i].customTags[key]) == TagStrings(ops2[i].customTags[key])
    ensures Ids(Filter(ops1, key, target)) == Ids(Filter(ops2, key, target))
  {
    if ops1 != [] {
      var n := |ops1| - 1;
      FilterDependsOnlyOnTagStrings(ops1[..n], ops2[..n], key, target);
      if key in ops1[n].customTags {
        MatchesIffTagStrings(ops1[n].customTags[key], target);
        MatchesIffTagStrings(ops2[n].customTags[key], target);
      }
      var r1, r2 := Filter(ops1[..n], key, target), Filter(ops2[..n], key, target);
      if Keep(ops1[n], key, target) {
        assert Ids(Filter(ops1, key, target)) == Ids(r1) + [ops1[n].operationId];
        assert Ids(Filter(ops2, key, target)) == Ids(r2) + [ops2[n].operationId];
      } else {
        assert Filter(ops1, key, target) == r1;
        assert Filter(ops2, key, target) == r2;
      }
    }
  }
}

=== FILE: groups.dfy ===
/** The operation-group calls: the existence probe, delete, create, and the
    replacement of the group's membership (`groupExists`, `deleteGroup`,
    `createGroup`, `updateGroupOperations`). Each call is reduced to the
    answer the service gives it. */
module Groups {
  import opened Wrappers
  import opened Types


  /** The answer to a group call: none (request not built or not sent), or a
      status code. */
  datatype Reply = NoReply | Status(code: int)

  /** The existence probe: 200 means the group exists, 404 that it does not;
      any other status is an error carrying that status. */
  function GroupExists(reply: Reply): (r: Result<bool, Error>)
    ensures r == Ok(true) <==> reply == Status(StatusOK)
    ensures r == Ok(false) <==> reply == Status(StatusNotFound)
    ensures r.Err? && reply.Status? ==> r.error == UnexpectedStatus(reply.code)
    ensures reply.NoReply? ==> r == Err(Transport)
  {
    match reply
    case NoReply => Err(Transport)
    case Status(code) =>
      if code == StatusOK then Ok(true)
      else if code == StatusNotFound then Ok(false)
      else Err(UnexpectedStatus(code))
  }

  /** A call that succeeds on exactly one status code. */
  function Acknowledged(reply: Reply, expected: int): (r: Result<(), Error>)
    ensures r.Ok? <==> reply == Status(expected)
    ensures r.Err? && reply.Status? ==> r.error == UnexpectedStatus(reply.code)
    ensures reply.NoReply? ==> r == Err(Transport)
  {
    match reply
    case NoReply => Err(Transport)
    case Status(code) => if code == expected then Ok(()) else Err(UnexpectedStatus(code))
  }

  /** Deleting the group is acknowledged with 204 No Content. */
  function DeleteGroup(reply: Reply): (r: Result<(), Error>)
    ensures r.Ok? <==> reply == Status(StatusNoContent)
  {
    Acknowledged(reply, StatusNoContent)
  }

  /** Creating the group is acknowledged with 201 Created. */
  function CreateGroup(reply: Reply): (r: Result<(), Error>)
    ensures r.Ok? <==> reply == Status(StatusCreated)
  {
    Acknowledged(reply, StatusCreated)
  }

  /** Replacing the membership is acknowledged with 204 No Content. */
  function UpdateGroupOperations(reply: Reply): (r: Result<(), Error>)
    ensures r.Ok? <==> reply == Status(StatusNoContent)
  {
    Acknowledged(reply, StatusNoContent)
  }

  /** The identifiers a membership payload carries, in order. */
  function RefIds(refs: seq<OperationRef>): (ids: seq<string>)
  {
    seq(|refs|, i requires 0 <= i < |refs| => refs[i].operationId)
  }

  /** The membership payload for a list of operations: one reference per
      operation, in the same order. */
  function Refs(ops: seq<Operation>): seq<OperationRef>
  {
    seq(|ops|, i requires 0 <= i < |ops| => OperationRef(ops[i].operationId))
  }

  /** The payload of `updateGroupOperations`: a slice of the length of the
      operation list, filled by index with each operation's identifier. */
  method OperationRefs(ops: seq<Operation>) returns (refs: seq<OperationRef>)
    ensures |refs| == |ops|
    ensures forall i :: 0 <= i < |ops| ==> refs[i] == OperationRef(ops[i].operationId)
    ensures RefIds(refs) == Ids(ops)
    ensures refs == Refs(ops)
  {
    var a := new OperationRef[|ops|];
    for i := 0 to |ops|
      invariant forall k :: 0 <= k < i ==> a[k] == OperationRef(ops[k].operationId)
    {
      a[i] := OperationRef(ops[i].operationId);
    }
    refs := a[..];
  }
}

=== FILE: lister.dfy ===
/** Listing every operation of a package version page by page
    (`listOperations`). The service is a finite script: `pages[i]` is its
    answer to the request for page `i`; a request past the end of the script
    gets no answer, which the source sees as a transport failure. */
module Lister {
  import opened Wrappers
  import opened Types

  /** Number of operations asked for per page (`limit`). */
  const PageSize := 100

  /** The answer to one page request: none at all, or a status code with the
      decoded operation list (`None` when the body did not decode). */
  datatype PageReply =
    | NoAnswer
    | PageHttp(code: int, body: Option<seq<Operation>>)

  /** The outcome of the listing and the page indices requested, in order. */
  datatype Listing = Listing(result: Result<seq<Operation>, Error>, requested: seq<nat>)

  function PageAt(pages: seq<PageReply>, page: nat): PageReply
  {
    if page < |pages| then pages[page] else NoAnswer
  }

  /** A 200 answer whose body decoded. */
  predicate PageOk(reply: PageReply)
  {
    reply.PageHttp? && reply.code == StatusOK && reply.body.Some?
  }

  /** A decoded page that does not end the listing. */
  predicate FullPage(reply: PageReply)
  {
    PageOk(reply) && |reply.body.value| >= PageSize
  }

  /** The operations a page carries (none unless it decoded). */
  function PageOps(reply: PageReply): seq<Operation>
  {
    if reply.PageHttp? && reply.body.Some? then reply.body.value else []
  }

  /** The operations of `count` consecutive pages starting at `from`. */
  function ConcatPages(pages: seq<PageReply>, from: nat, count: nat): seq<Operation>
    decreases count
  {
    if count == 0 then [] else PageOps(PageAt(pages, from)) + ConcatPages(pages, from + 1, count - 1)
  }

  /** The listing from page `page` onwards: each page is requested, a failed
      or undecodable page aborts, a page shorter than `PageSize` ends it. */
  function ListFrom(pages: seq<PageReply>, page: nat): Listing
    decreases |pages| - page
  {
    match PageAt(pages, page)
    case NoAnswer => Listing(Err(Transport), [page])
    case PageHttp(code, body) =>
      if code != StatusOK then Listing(Err(UnexpectedStatus(code)), [page])
      else if body.None? then Listing(Err(Malformed), [page])
      else if |body.value| < PageSize then Listing(Ok(body.value), [page])
      else Extend(body.value, [page], ListFrom(pages, page + 1))
  }

  /** A listing preceded by operations already gathered and requests already
      made. */
  function Extend(gathered: seq<Operation>, made: seq<nat>, rest: Listing): Listing
  {
    Listing(if rest.result.Ok? then Ok(gathered + rest.result.value) else rest.result,
            made + rest.requested)
  }

  lemma ExtendNothing(l: Listing)
    ensures Extend([], [], l) == l
  {
    assert [] + l.requested == l.requested;
    if l.result.Ok? {
      assert [] + l.result.value == l.result.value;
    }
  }

  lemma ExtendTwice(a: seq<Operation>, ra: seq<nat>, b: seq<Operation>, rb: seq<nat>, l: Listing)
    ensures Extend(a, ra, Extend(b, rb, l)) == Extend(a + b, ra + rb, l)
  {
    assert ra + (rb + l.requested) == (ra + rb) + l.requested;
    if l.result.Ok? {
      assert a + (b + l.result.value) == (a + b) + l.result.value;
    }
  }

  /** The `for` loop of `listOperations`, accumulating `allOps` page by page. */
  method ListOperations(pages: seq<PageReply>) returns (r: Result<seq<Operation>, Error>, requested: seq<nat>)
    ensures Listing(r, requested) == ListFrom(pages, 0)
  {
    var allOps: seq<Operation> := [];
    var page: nat := 0;
    requested := [];
    ExtendNothing(ListFrom(pages, 0));
    while true
      invariant ListFrom(pages, 0) == Extend(allOps, requested, ListFrom(pages, page))
      decreases |pages| - page
    {
      requested := requested + [page];
      var reply := PageAt(pages, page);
      if reply.NoAnswer? {
        r := Err(Transport);
        return;
      }
      if reply.code != StatusOK {
        r := Err(UnexpectedStatus(reply.code));
        return;
      }
      if reply.body.None? {
        r := Err(Malformed);
        return;
      }
      var listed := reply.body.value;
      ExtendTwice(allOps, requested[..|requested| - 1], listed, [page], ListFrom(pages, page + 1));
      assert requested[..|requested| - 1] + [page] == requested;
      allOps := allOps + listed;
      if |listed| < PageSize {
        break;
      }
      page := page + 1;
    }
    r := Ok(allOps);
  }

  /** What a listing from page `p` looks like: it requests `p`, `p + 1`, ...
      in order; every page but the last it requests was full and the last
      was not; it succeeds exactly when the last one decoded, and then returns the
      concatenation of all the pages it requested; otherwise the last page is
      the one that failed. */
  lemma {:induction false} ListFromShape(pages: seq<PageReply>, p: nat)
    ensures var l := ListFrom(pages, p);
      |l.requested| >= 1 &&
      (forall k :: 0 <= k < |l.requested| ==> l.requested[k] == p + k) &&
      (forall k :: 0 <= k < |l.requested| - 1 ==> FullPage(PageAt(pages, l.requested[k]))) &&
      !FullPage(PageAt(pages, l.requested[|l.requested| - 1])) &&
      (l.result.Ok? <==> PageOk(PageAt(pages, l.requested[|l.requested| - 1]))) &&
      (l.result.Ok? ==> l.result.value == ConcatPages(pages, p, |l.requested|))
    decreases |pages| - p
  {
    var reply := PageAt(pages, p);
    var l := ListFrom(pages, p);
    if FullPage(reply) {
      ListFromShape(pages, p + 1);
      var rest := ListFrom(pages, p + 1);
      assert l == Extend(reply.body.value, [p], rest);
      assert l.requested == [p] + rest.requested;
      forall k | 0 <= k < |l.requested| - 1 ensures FullPage(PageAt(pages, l.requested[k])) {
        if k > 0 {
          assert l.requested[k] == rest.requested[k - 1];
        }
      }
      assert l.requested[|l.requested| - 1] == rest.requested[|rest.requested| - 1];
    } else {
      assert l.requested == [p];
      if l.result.Ok? {
        assert ConcatPages(pages, p, 1) == reply.body.value + [];
      }
    }
  }

  /** `k` full pages followed by a short one
      take `k + 1` requests and yield all of them, in page order. */
  lemma {:induction false} FullPagesThenShort(pages: seq<PageReply>, p: nat, k: nat)
    requires forall i :: p <= i < p + k ==> FullPage(PageAt(pages, i))
    requires PageOk(PageAt(pages, p + k)) && !FullPage(PageAt(pages, p + k))
    ensures |ListFrom(pages, p).requested| == k + 1
    ensures ListFrom(pages, p).result == Ok(ConcatPages(pages, p, k + 1))
    decreases k
  {
    var reply := PageAt(pages, p);
    if k > 0 {
      FullPagesThenShort(pages, p + 1, k - 1);
      assert ListFrom(pages, p) == Extend(reply.body.value, [p], ListFrom(pages, p + 1));
    } else {
      assert ListFrom(pages, p) == Listing(Ok(reply.body.value), [p]);
      assert ConcatPages(pages, p + 1, 0) == [];
      assert reply.body.value + [] == reply.body.value;
      assert ConcatPages(pages, p, k + 1) == reply.body.value;
    }
  }

  /** A failing page stops the listing with no operations: an answer other
      than 200, or a body that did not decode, among the pages requested
      means the listing failed. */
  lemma ListAbortsOnFailedPage(pages: seq<PageReply>, i: nat)
    requires i < |ListFrom(pages, 0).requested|
    requires !PageOk(PageAt(pages, i))
    ensures ListFrom(pages, 0).result.Err?
    ensures i == |ListFrom(pages, 0).requested| - 1
  {
    ListFromShape(pages, 0);
    var l := ListFrom(pages, 0);
    assert l.requested[i] == i;
  }
}

=== FILE: pipeline.dfy ===
/** The workflow of the tool's `main`: check the arguments, list the
    operations, filter them, optionally delete the group, create it, set its
    membership, start the export and wait for it. The remote service is a
    script of answers, one per call; the observable behaviour is the sequence
    of calls made and the way the run ends. */
module Pipeline {
  import opened Wrappers
  import opened Types
  import Filter
  import Lister
  import Groups
  import Export

  /** The command-line arguments. */
  datatype Args = Args(
    apihubUrl: string,
    packageId: string,
    version: string,
    group: string,
    token: string,
    tagKey: string,
    tagValue: string,
    force: bool,
    outputFormat: string)

  /** The scripted answers of the service, one per kind of call (each group
      call is made at most once in a run). */
  datatype Environment = Environment(
    pages: seq<Lister.PageReply>,
    probe: Groups.Reply,
    deletion: Groups.Reply,
    creation: Groups.Reply,
    update: Groups.Reply,
    start: Export.StartReply,
    polls: seq<Export.StatusReply>)

  /** A call made to the service. */
  datatype Call =
    | ListPage(page: nat)
    | CallExists
    | CallDelete
    | CallCreate
    | CallSetMembership(refs: seq<OperationRef>)
    | CallStartExport(format: string)
    | CallStatus(exportId: string, attempt: nat)

  /** The file written at the end of a successful export. */
  datatype File = File(path: string, data: seq<Export.byte>)

  /** How a run ends: success, with the file written if any, or failure. */
  datatype Exit = Done(file: Option<File>) | Failed(error: Error)

  datatype Session = Session(exit: Exit, trace: seq<Call>)

  /** All required arguments are non-empty. */
  predicate RequiredPresent(args: Args)
  {
    args.apihubUrl != "" && args.packageId != "" && args.version != "" && args.group != "" &&
    args.token != "" && args.tagKey != "" && args.tagValue != ""
  }

  /** Argument validation: missing arguments are reported first, then an
      output format other than `yaml` or `json`. */
  function ValidateArgs(args: Args): (r: Result<(), Error>)
    ensures r.Ok? <==> RequiredPresent(args) && args.outputFormat in {"yaml", "json"}
    ensures r == Err(MissingParameters) <==> !RequiredPresent(args)
    ensures r == Err(InvalidFormat) <==> RequiredPresent(args) && args.outputFormat !in {"yaml", "json"}
  {
    if !RequiredPresent(args) then Err(MissingParameters)
    else if args.outputFormat != "yaml" && args.outputFormat != "json" then Err(InvalidFormat)
    else Ok(())
  }

  /** The output file name: the group name, a dot, the format. */
  function OutputPath(group: string, format: string): (path: string)
    ensures |path| == |group| + 1 + |format|
    ensures path[..|group|] == group && path[|group|] == '.' && path[|group| + 1..] == format
  {
    group + "." + format
  }

  /** The page requests of a listing. */
  function ListCalls(requested: seq<nat>): seq<Call>
  {
    seq(|requested|, i requires 0 <= i < |requested| => ListPage(requested[i]))
  }

  /** The status queries of an export wait. */
  function StatusCalls(exportId: string, n: nat): seq<Call>
  {
    seq(n, i requires 0 <= i < n => CallStatus(exportId, i))
  }

  /** The reference semantics of a run. */
  function ReferenceRun(args: Args, env: Environment): Session
  {
    match ValidateArgs(args)
    case Err(e) => Session(Failed(e), [])
    case Ok(_) =>
      var listing := Lister.ListFrom(env.pages, 0);
      var listed := ListCalls(listing.requested);
      match listing.result
      case Err(e) => Session(Failed(e), listed)
      case Ok(all) =>
        var ops := Filter.Filter(all, args.tagKey, args.tagValue);
        if ops == [] then Session(Done(None), listed)
        else Recreate(args, env, ops, listed)
  }

  /** With `force`, probe the group and delete it if it exists; then go on
      with `Populate`. `done` are the calls made so far. */
  function Recreate(args: Args, env: Environment, ops: seq<Operation>, done: seq<Call>): Session
  {
    if !args.force then Populate(args, env, ops, done)
    else
      match Groups.GroupExists(env.probe)
      case Err(e) => Session(Failed(e), done + [CallExists])
      case Ok(found) =>
        if !found then Populate(args, env, ops, done + [CallExists])
        else
          match Groups.DeleteGroup(env.deletion)
          case Err(e) => Session(Failed(e), done + [CallExists] + [CallDelete])
          case Ok(_) => Populate(args, env, ops, done + [CallExists] + [CallDelete])
  }

  /** Create the group, set its membership, start the export and wait. */
  function Populate(args: Args, env: Environment, ops: seq<Operation>, done: seq<Call>): Session
  {
    var created := done + [CallCreate];
    match Groups.CreateGroup(env.creation)
    case Err(e) => Session(Failed(e), created)
    case Ok(_) =>
      var updated := created + [CallSetMembership(Groups.Refs(ops))];
      match Groups.UpdateGroupOperations(env.update)
      case Err(e) => Session(Failed(e), updated)
      case Ok(_) =>
        var started := updated + [CallStartExport(args.outputFormat)];
        match Export.StartExport(env.start)
        case Err(e) => Session(Failed(e), started)
        case Ok(id) =>
          var polling := Export.PollFrom(env.polls, 0);
          var trace := started + StatusCalls(id, polling.queries);
          match polling.result
          case Err(e) => Session(Failed(e), trace)
          case Ok(data) => Session(Done(Some(File(OutputPath(args.group, args.outputFormat), data))), trace)
  }

  /** The body of `main`, one step after the other; any failure ends it. */
  method Execute(args: Args, env: Environment) returns (exit: Exit, trace: seq<Call>)
    ensures Session(exit, trace) == ReferenceRun(args, env)
  {
    trace := [];
    var valid := ValidateArgs(args);
    if valid.Err? {
      exit := Failed(valid.error);
      return;
    }
    var operations, requested := Lister.ListOperations(env.pages);
    trace := ListCalls(requested);
    if operations.Err? {
      exit := Failed(operations.error);
      return;
    }
    var filteredOps := Filter.FilterOperations(operations.value, args.tagKey, args.tagValue);
    if |filteredOps| == 0 {
      exit := Done(None);
      return;
    }
    if args.force {
      trace := trace + [CallExists];
      var present := Groups.GroupExists(env.probe);
      if present.Err? {
        exit := Failed(present.error);
        return;
      } else if present.value {
        trace := trace + [CallDelete];
        var deleted := Groups.DeleteGroup(env.deletion);
        if deleted.Err? {
          exit := Failed(deleted.error);
          return;
        }
      }
    }
    trace := trace + [CallCreate];
    var created := Groups.CreateGroup(env.creation);
    if created.Err? {
      exit := Failed(created.error);
      return;
    }
    var refs := Groups.OperationRefs(filteredOps);
    trace := trace + [CallSetMembership(refs)];
    var updated := Groups.UpdateGroupOperations(env.update);
    if updated.Err? {
      exit := Failed(updated.error);
      return;
    }
    trace := trace + [CallStartExport(args.outputFormat)];
    var exportId := Export.StartExport(env.start);
    if exportId.Err? {
      exit := Failed(exportId.error);
      return;
    }
    var filePath := OutputPath(args.group, args.outputFormat);
    var saved, queries := Export.WaitAndSaveExport(env.polls);
    trace := trace + StatusCalls(exportId.value, queries);
    if saved.Err? {
      exit := Failed(saved.error);
      return;
    }
    exit := Done(Some(File(filePath, saved.value)));
  }

  /** The position of a kind of call in the order `main` makes them. */
  function Stage(c: Call): nat
  {
    match c
    case ListPage(_) => 0
    case CallExists => 1
    case CallDelete => 2
    case CallCreate => 3
    case CallSetMembership(_) => 4
    case CallStartExport(_) => 5
    case CallStatus(_, _) => 6
  }

  /** Calls of earlier stages come first, and only page requests and status
      queries occur more than once. */
  predicate Ordered(t: seq<Call>)
  {
    forall i, j :: 0 <= i < j < |t| ==>
      Stage(t[i]) < Stage(t[j]) || (Stage(t[i]) == Stage(t[j]) && (t[i].ListPage? || t[i].CallStatus?))
  }

  predicate Below(t: seq<Call>, stage: nat)
  {
    forall i :: 0 <= i < |t| ==> Stage(t[i]) < stage
  }

  /** The service's answer to call `c` lets the run go on to its next call. */
  predicate Proceeds(c: Call, env: Environment)
  {
    match c
    case ListPage(p) => Lister.PageOk(Lister.PageAt(env.pages, p))
    case CallExists => Groups.GroupExists(env.probe).Ok?
    case CallDelete => Groups.DeleteGroup(env.deletion).Ok?
    case CallCreate => Groups.CreateGroup(env.creation).Ok?
    case CallSetMembership(_) => Groups.UpdateGroupOperations(env.update).Ok?
    case CallStartExport(_) => Export.StartExport(env.start).Ok?
    case CallStatus(_, a) => Export.Verdict(Export.StatusAt(env.polls, a)).None?
  }

  predicate AllProceed(t: seq<Call>, env: Environment)
  {
    forall i :: 0 <= i < |t| ==> Proceeds(t[i], env)
  }

  lemma OrderedExtend(t: seq<Call>, c: Call)
    requires Ordered(t) && Below(t, Stage(c))
    ensures Ordered(t + [c]) && Below(t + [c], Stage(c) + 1)
  {
  }

  lemma OrderedWithStatusCalls(t: seq<Call>, id: string, n: nat)
    requires Ordered(t) && Below(t, 6)
    ensures Ordered(t + StatusCalls(id, n))
  {
  }

  /** What `Populate` adds after the calls already made: calls of stage
      Create or later, the membership payload of exactly the given operations
      and the export request in the chosen format. */
  lemma PopulateTail(args: Args, env: Environment, ops: seq<Operation>, done: seq<Call>)
    ensures var t := Populate(args, env, ops, done).trace;
      |done| < |t| && t[..|done|] == done &&
      (forall i :: |done| <= i < |t| ==> Stage(t[i]) >= 3) &&
      (forall i :: |done| <= i < |t| && t[i].CallSetMembership? ==> t[i].refs == Groups.Refs(ops)) &&
      (forall i :: |done| <= i < |t| && t[i].CallStartExport? ==> t[i].format == args.outputFormat)
  {
    var created := done + [CallCreate];
    if Groups.CreateGroup(env.creation).Ok? {
      var updated := created + [CallSetMembership(Groups.Refs(ops))];
      if Groups.UpdateGroupOperations(env.update).Ok? {
        var started := updated + [CallStartExport(args.outputFormat)];
        if Export.StartExport(env.start).Ok? {
          var t := started + StatusCalls(Export.StartExport(env.start).value, Export.PollFrom(env.polls, 0).queries);
          assert Populate(args, env, ops, done).trace == t;
          assert forall i :: |started| <= i < |t| ==> t[i].CallStatus?;
        }
      }
    }
  }

  /** `Recreate` likewise adds only group calls and later ones. */
  lemma RecreateTail(args: Args, env: Environment, ops: seq<Operation>, done: seq<Call>)
    ensures var t := Recreate(args, env, ops, done).trace;
      |done| < |t| && t[..|done|] == done &&
      (forall i :: |done| <= i < |t| ==> Stage(t[i]) >= 1) &&
      (forall i :: |done| <= i < |t| && t[i].CallSetMembership? ==> t[i].refs == Groups.Refs(ops)) &&
      (forall i :: |done| <= i < |t| && t[i].CallStartExport? ==> t[i].format == args.outputFormat)
  {
    if args.force && Groups.GroupExists(env.probe).Ok? {
      var e := done + [CallExists];
      if Groups.GroupExists(env.probe).value {
        if Groups.DeleteGroup(env.deletion).Ok? {
          PopulateTail(args, env, ops, e + [CallDelete]);
          assert (e + [CallDelete])[..|done|] == done;
        }
      } else {
        PopulateTail(args, env, ops, e);
        assert e[..|done|] == done;
      }
    } else if !args.force {
      PopulateTail(args, env, ops, done);
    }
  }

  /** An empty filter result ends the run successfully after the listing,
      before any group call. */
  lemma EmptyFilterShortCircuits(args: Args, env: Environment)
    requires ValidateArgs(args).Ok?
    requires Lister.ListFrom(env.pages, 0).result.Ok?
    requires Filter.Filter(Lister.ListFrom(env.pages, 0).result.value, args.tagKey, args.tagValue) == []
    ensures ReferenceRun(args, env).exit == Done(None)
    ensures forall c :: c in ReferenceRun(args, env).trace ==> c.ListPage?
  {
  }

  /** The group is deleted only with `force` and when the probe found it (and
      only once the filter selected something). */
  lemma DeleteOnlyWhenForcedAndPresent(args: Args, env: Environment)
    ensures CallDelete in ReferenceRun(args, env).trace <==>
              ValidateArgs(args).Ok? && Lister.ListFrom(env.pages, 0).result.Ok? &&
              Filter.Filter(Lister.ListFrom(env.pages, 0).result.value, args.tagKey, args.tagValue) != [] &&
              args.force && env.probe == Groups.Status(StatusOK)
  {
    if ValidateArgs(args).Ok? {
      var listing := Lister.ListFrom(env.pages, 0);
      var listed := ListCalls(listing.requested);
      assert Below(listed, 1);
      if listing.result.Ok? {
        var ops := Filter.Filter(listing.result.value, args.tagKey, args.tagValue);
        if ops != [] {
          RecreateDeletes(args, env, ops, listed);
        }
      }
    }
  }

  lemma RecreateDeletes(args: Args, env: Environment, ops: seq<Operation>, done: seq<Call>)
    requires Below(done, 1)
    ensures CallDelete in Recreate(args, env, ops, done).trace <==>
              args.force && env.probe == Groups.Status(StatusOK)
  {
    var e := done + [CallExists];
    if args.force && env.probe == Groups.Status(StatusOK) {
      var d := e + [CallDelete];
      assert d[|d| - 1] == CallDelete;
      if Groups.DeleteGroup(env.deletion).Ok? {
        PopulateTail(args, env, ops, d);
        assert Recreate(args, env, ops, done).trace[..|d|] == d;
      }
    } else if args.force && Groups.GroupExists(env.probe).Ok? {
      PopulateNoDelete(args, env, ops, e);
    } else if !args.force {
      PopulateNoDelete(args, env, ops, done);
    }
  }

  lemma PopulateNoDelete(args: Args, env: Environment, ops: seq<Operation>, done: seq<Call>)
    requires Below(done, 2)
    ensures CallDelete !in Populate(args, env, ops, done).trace
  {
    PopulateTail(args, env, ops, done);
    var t := Populate(args, env, ops, done).trace;
    forall i | 0 <= i < |t| ensures t[i] != CallDelete {
      if i < |done| {
        assert t[i] == t[..|done|][i];
      }
    }
  }

  /** Calls are made in the order list, probe, delete, create, set
      membership, start export, status queries; each group call at most once. */
  lemma PipelineOrdered(args: Args, env: Environment)
    ensures Ordered(ReferenceRun(args, env).trace)
    ensures var t := ReferenceRun(args, env).trace;
      (t != [] ==> t[0] == ListPage(0)) && Chained(t, 1, args, env)
  {
    RunChained(args, env);
    if ValidateArgs(args).Ok? {
      var listing := Lister.ListFrom(env.pages, 0);
      var listed := ListCalls(listing.requested);
      assert Ordered(listed) && Below(listed, 1);
      if listing.result.Ok? {
        var ops := Filter.Filter(listing.result.value, args.tagKey, args.tagValue);
        if ops != [] {
          RecreateOrdered(args, env, ops, listed);
        }
      }
    }
  }

  lemma RecreateOrdered(args: Args, env: Environment, ops: seq<Operation>, done: seq<Call>)
    requires Ordered(done) && Below(done, 1)
    ensures Ordered(Recreate(args, env, ops, done).trace)
  {
    if args.force {
      OrderedExtend(done, CallExists);
      var e := done + [CallExists];
      if Groups.GroupExists(env.probe).Ok? {
        if Groups.GroupExists(env.probe).value {
          OrderedExtend(e, CallDelete);
          PopulateOrdered(args, env, ops, e + [CallDelete]);
        } else {
          PopulateOrdered(args, env, ops, e);
        }
      }
    } else {
      PopulateOrdered(args, env, ops, done);
    }
  }

  lemma PopulateOrdered(args: Args, env: Environment, ops: seq<Operation>, done: seq<Call>)
    requires Ordered(done) && Below(done, 3)
    ensures Ordered(Populate(args, env, ops, done).trace)
  {
    OrderedExtend(done, CallCreate);
    var created := done + [CallCreate];
    var refs := CallSetMembership(Groups.Refs(ops));
    OrderedExtend(created, refs);
    var updated := created + [refs];
    OrderedExtend(updated, CallStartExport(args.outputFormat));
    var started := updated + [CallStartExport(args.outputFormat)];
    if Export.StartExport(env.start).Ok? {
      OrderedWithStatusCalls(started, Export.StartExport(env.start).value, Export.PollFrom(env.polls, 0).queries);
    }
  }

  /** The listing selected something to put in the group. */
  predicate Selected(args: Args, env: Environment)
  {
    ValidateArgs(args).Ok? && Lister.ListFrom(env.pages, 0).result.Ok? &&
    Filter.Filter(Lister.ListFrom(env.pages, 0).result.value, args.tagKey, args.tagValue) != []
  }

  /** Call `c` may come right after `prev`: the call before it is the one
      `main` must have made first, and its answer let the run go on to `c`. */
  predicate Follows(prev: Call, c: Call, args: Args, env: Environment)
  {
    match c
    case ListPage(p) => p > 0 && prev == ListPage(p - 1) && Lister.FullPage(Lister.PageAt(env.pages, p - 1))
    case CallExists =>
      args.force && prev.ListPage? && !Lister.FullPage(Lister.PageAt(env.pages, prev.page)) && Selected(args, env)
    case CallDelete => prev == CallExists && Groups.GroupExists(env.probe) == Ok(true)
    case CallCreate =>
      (!args.force && prev.ListPage? && !Lister.FullPage(Lister.PageAt(env.pages, prev.page)) && Selected(args, env)) ||
      (prev == CallExists && Groups.GroupExists(env.probe) == Ok(false)) ||
      (prev == CallDelete && Groups.DeleteGroup(env.deletion).Ok?)
    case CallSetMembership(_) => prev == CallCreate && Groups.CreateGroup(env.creation).Ok?
    case CallStartExport(format) =>
      prev.CallSetMembership? && Groups.UpdateGroupOperations(env.update).Ok? && format == args.outputFormat
    case CallStatus(id, a) =>
      Export.StartExport(env.start) == Ok(id) &&
      (if a == 0 then prev.CallStartExport? else prev == CallStatus(id, a - 1))
  }

  /** From position `from` on, every call follows the one before it. */
  predicate Chained(t: seq<Call>, from: nat, args: Args, env: Environment)
  {
    forall i :: from <= i < |t| && 0 < i ==> Follows(t[i - 1], t[i], args, env)
  }

  lemma ChainAppend(t: seq<Call>, from: nat, c: Call, args: Args, env: Environment)
    requires t != [] && Chained(t, from, args, env) && Follows(t[|t| - 1], c, args, env)
    ensures Chained(t + [c], from, args, env)
  {
    var u := t + [c];
    forall i | from <= i < |u| && 0 < i ensures Follows(u[i - 1], u[i], args, env) {
      if i < |t| {
        assert u[i - 1] == t[i - 1] && u[i] == t[i];
      }
    }
  }

  lemma ChainStatusCalls(t: seq<Call>, from: nat, id: string, n: nat, args: Args, env: Environment)
    requires t != [] && Chained(t, from, args, env) && t[|t| - 1].CallStartExport?
    requires Export.StartExport(env.start) == Ok(id)
    ensures Chained(t + StatusCalls(id, n), from, args, env)
  {
    var calls := StatusCalls(id, n);
    var u := t + calls;
    forall i | from <= i < |u| && 0 < i ensures Follows(u[i - 1], u[i], args, env) {
      if i < |t| {
        assert u[i - 1] == t[i - 1] && u[i] == t[i];
      } else {
        assert u[i] == CallStatus(id, i - |t|);
        if i > |t| {
          assert u[i - 1] == CallStatus(id, i - 1 - |t|);
        }
      }
    }
  }

  lemma PopulateChained(args: Args, env: Environment, ops: seq<Operation>, done: seq<Call>, from: nat)
    requires done != [] && Chained(done, from, args, env) && Follows(done[|done| - 1], CallCreate, args, env)
    ensures Chained(Populate(args, env, ops, done).trace, from, args, env)
  {
    ChainAppend(done, from, CallCreate, args, env);
    var created := done + [CallCreate];
    if Groups.CreateGroup(env.creation).Ok? {
      var refs := CallSetMembership(Groups.Refs(ops));
      ChainAppend(created, from, refs, args, env);
      var updated := created + [refs];
      if Groups.UpdateGroupOperations(env.update).Ok? {
        var start := CallStartExport(args.outputFormat);
        ChainAppend(updated, from, start, args, env);
        var started := updated + [start];
        if Export.StartExport(env.start).Ok? {
          ChainStatusCalls(started, from, Export.StartExport(env.start).value, Export.PollFrom(env.polls, 0).queries, args, env);
        }
      }
    }
  }

  lemma RecreateChained(args: Args, env: Environment, ops: seq<Operation>, done: seq<Call>, from: nat)
    requires done != [] && Chained(done, from, args, env) && done[|done| - 1].ListPage? && Selected(args, env)
    requires !Lister.FullPage(Lister.PageAt(env.pages, done[|done| - 1].page))
    ensures Chained(Recreate(args, env, ops, done).trace, from, args, env)
  {
    if args.force {
      ChainAppend(done, from, CallExists, args, env);
      var e := done + [CallExists];
      if Groups.GroupExists(env.probe).Ok? {
        if Groups.GroupExists(env.probe).value {
          ChainAppend(e, from, CallDelete, args, env);
          if Groups.DeleteGroup(env.deletion).Ok? {
            PopulateChained(args, env, ops, e + [CallDelete], from);
          }
        } else {
          PopulateChained(args, env, ops, e, from);
        }
      }
    } else {
      PopulateChained(args, env, ops, done, from);
    }
  }

  lemma ListingChained(args: Args, env: Environment)
    ensures var listed := ListCalls(Lister.ListFrom(env.pages, 0).requested);
      listed != [] && listed[0] == ListPage(0) && listed[|listed| - 1].ListPage? &&
      !Lister.FullPage(Lister.PageAt(env.pages, listed[|listed| - 1].page)) && Chained(listed, 1, args, env)
  {
    var l := Lister.ListFrom(env.pages, 0);
    Lister.ListFromShape(env.pages, 0);
    var listed := ListCalls(l.requested);
    forall i | 1 <= i < |listed| ensures Follows(listed[i - 1], listed[i], args, env) {
      assert listed[i] == ListPage(l.requested[i]) && listed[i - 1] == ListPage(l.requested[i - 1]);
    }
  }

  lemma RunChained(args: Args, env: Environment)
    ensures var t := ReferenceRun(args, env).trace;
      (t != [] ==> t[0] == ListPage(0)) && Chained(t, 1, args, env)
  {
    if ValidateArgs(args).Ok? {
      var listing := Lister.ListFrom(env.pages, 0);
      var listed := ListCalls(listing.requested);
      ListingChained(args, env);
      if listing.result.Ok? {
        var ops := Filter.Filter(listing.result.value, args.tagKey, args.tagValue);
        if ops != [] {
          assert ReferenceRun(args, env) == Recreate(args, env, ops, listed);
          RecreateChained(args, env, ops, listed, 1);
          RecreateTail(args, env, ops, listed);
          assert Recreate(args, env, ops, listed).trace[0] == listed[0];
        }
      }
    }
  }

  /** No call is made without the ones `main` must make before it: the group
      is deleted only after the probe found it, its membership is set only
      after it was created, the export starts only after the membership was
      set, and status queries only after the export started. */
  lemma MandatoryPredecessors(args: Args, env: Environment)
    ensures var t := ReferenceRun(args, env).trace;
      (forall i :: 0 <= i < |t| && t[i] == CallDelete ==>
         CallExists in t[..i] && Groups.GroupExists(env.probe) == Ok(true)) &&
      (forall i :: 0 <= i < |t| && t[i].CallSetMembership? ==>
         CallCreate in t[..i] && Groups.CreateGroup(env.creation).Ok?) &&
      (forall i :: 0 <= i < |t| && t[i].CallStartExport? ==>
         (exists j :: 0 <= j < i && t[j].CallSetMembership?) && Groups.UpdateGroupOperations(env.update).Ok?) &&
      (forall i :: 0 <= i < |t| && t[i].CallStatus? ==>
         (exists j :: 0 <= j < i && t[j].CallStartExport?) && Export.StartExport(env.start) == Ok(t[i].exportId))
  {
    RunChained(args, env);
    ChainPredecessors(ReferenceRun(args, env).trace, args, env);
  }

  /** The predecessors a chained trace guarantees. */
  lemma ChainPredecessors(t: seq<Call>, args: Args, env: Environment)
    requires Chained(t, 1, args, env) && (t != [] ==> t[0] == ListPage(0))
    ensures forall i :: 0 <= i < |t| && t[i] == CallDelete ==>
              CallExists in t[..i] && Groups.GroupExists(env.probe) == Ok(true)
    ensures forall i :: 0 <= i < |t| && t[i].CallSetMembership? ==>
              CallCreate in t[..i] && Groups.CreateGroup(env.creation).Ok?
    ensures forall i :: 0 <= i < |t| && t[i].CallStartExport? ==>
              (exists j :: 0 <= j < i && t[j].CallSetMembership?) && Groups.UpdateGroupOperations(env.update).Ok?
    ensures forall i :: 0 <= i < |t| && t[i].CallStatus? ==>
              (exists j :: 0 <= j < i && t[j].CallStartExport?) && Export.StartExport(env.start) == Ok(t[i].exportId)
  {
    forall i | 0 <= i < |t| && t[i] == CallDelete
      ensures CallExists in t[..i] && Groups.GroupExists(env.probe) == Ok(true)
    {
      assert Follows(t[i - 1], t[i], args, env);
      assert t[..i][i - 1] == t[i - 1];
    }
    forall i | 0 <= i < |t| && t[i].CallSetMembership?
      ensures CallCreate in t[..i] && Groups.CreateGroup(env.creation).Ok?
    {
      assert Follows(t[i - 1], t[i], args, env);
      assert t[..i][i - 1] == t[i - 1];
    }
    forall i | 0 <= i < |t| && t[i].CallStartExport?
      ensures (exists j :: 0 <= j < i && t[j].CallSetMembership?) && Groups.UpdateGroupOperations(env.update).Ok?
    {
      assert Follows(t[i - 1], t[i], args, env);
    }
    forall i | 0 <= i < |t| && t[i].CallStatus?
      ensures (exists j :: 0 <= j < i && t[j].CallStartExport?) && Export.StartExport(env.start) == Ok(t[i].exportId)
    {
      assert Follows(t[i - 1], t[i], args, env);
      StatusAfterStart(t, i, args, env);
    }
  }

  lemma {:induction false} StatusAfterStart(t: seq<Call>, i: nat, args: Args, env: Environment)
    requires Chained(t, 1, args, env) && (t != [] ==> t[0] == ListPage(0))
    requires i < |t| && t[i].CallStatus?
    ensures exists j :: 0 <= j < i && t[j].CallStartExport?
    decreases i
  {
    assert i > 0;
    assert Follows(t[i - 1], t[i], args, env);
    if !t[i - 1].CallStartExport? {
      StatusAfterStart(t, i - 1, args, env);
    }
  }

  /** A failure stops the run: every call but the last was answered so that
      the run could go on; when the run failed other than by running out of
      status queries, the last call is the one whose answer failed it, and a
      run that failed before any call failed on its arguments. */
  lemma FailureStopsLaterCalls(args: Args, env: Environment)
    ensures var s := ReferenceRun(args, env);
      (forall i :: 0 <= i < |s.trace| - 1 ==> Proceeds(s.trace[i], env)) &&
      (s.exit.Failed? && s.trace != [] && s.exit.error != TimedOut(Export.MaxAttempts) ==>
         !Proceeds(s.trace[|s.trace| - 1], env)) &&
      (s.exit.Failed? && s.trace == [] ==> ValidateArgs(args).Err?)
  {
    if ValidateArgs(args).Ok? {
      var listing := Lister.ListFrom(env.pages, 0);
      var listed := ListCalls(listing.requested);
      ListingStops(env);
      if listing.result.Ok? {
        var ops := Filter.Filter(listing.result.value, args.tagKey, args.tagValue);
        if ops != [] {
          assert ReferenceRun(args, env) == Recreate(args, env, ops, listed);
          RecreateStops(args, env, ops, listed);
        } else {
          assert ReferenceRun(args, env) == Session(Done(None), listed);
        }
      } else {
        assert ReferenceRun(args, env) == Session(Failed(listing.result.error), listed);
      }
    }
  }

  lemma ListingStops(env: Environment)
    ensures var listing := Lister.ListFrom(env.pages, 0);
      var listed := ListCalls(listing.requested);
      listed != [] &&
      (forall i :: 0 <= i < |listed| - 1 ==> Proceeds(listed[i], env)) &&
      (listing.result.Ok? ==> AllProceed(listed, env)) &&
      (listing.result.Err? ==> !Proceeds(listed[|listed| - 1], env))
  {
    Lister.ListFromShape(env.pages, 0);
  }

  lemma RecreateStops(args: Args, env: Environment, ops: seq<Operation>, done: seq<Call>)
    requires AllProceed(done, env)
    ensures var s := Recreate(args, env, ops, done);
      s.trace != [] &&
      (forall i :: 0 <= i < |s.trace| - 1 ==> Proceeds(s.trace[i], env)) &&
      (s.exit.Failed? && s.exit.error != TimedOut(Export.MaxAttempts) ==> !Proceeds(s.trace[|s.trace| - 1], env))
  {
    if args.force {
      var e := done + [CallExists];
      if Groups.GroupExists(env.probe).Ok? {
        assert AllProceed(e, env);
        if Groups.GroupExists(env.probe).value {
          var d := e + [CallDelete];
          if Groups.DeleteGroup(env.deletion).Ok? {
            assert AllProceed(d, env);
            PopulateStops(args, env, ops, d);
          }
        } else {
          PopulateStops(args, env, ops, e);
        }
      }
    } else {
      PopulateStops(args, env, ops, done);
    }
  }

  lemma PopulateStops(args: Args, env: Environment, ops: seq<Operation>, done: seq<Call>)
    requires AllProceed(done, env)
    ensures var s := Populate(args, env, ops, done);
      s.trace != [] &&
      (forall i :: 0 <= i < |s.trace| - 1 ==> Proceeds(s.trace[i], env)) &&
      (s.exit.Failed? && s.exit.error != TimedOut(Export.MaxAttempts) ==> !Proceeds(s.trace[|s.trace| - 1], env))
  {
    var created := done + [CallCreate];
    if Groups.CreateGroup(env.creation).Ok? {
      var updated := created + [CallSetMembership(Groups.Refs(ops))];
      if Groups.UpdateGroupOperations(env.update).Ok? {
        var started := updated + [CallStartExport(args.outputFormat)];
        if Export.StartExport(env.start).Ok? {
          WaitStops(env, started, Export.StartExport(env.start).value);
        }
      }
    }
  }

  lemma WaitStops(env: Environment, started: seq<Call>, id: string)
    requires AllProceed(started, env)
    ensures var polling := Export.PollFrom(env.polls, 0);
      var t := started + StatusCalls(id, polling.queries);
      t != [] &&
      (forall i :: 0 <= i < |t| - 1 ==> Proceeds(t[i], env)) &&
      (polling.result != Err(TimedOut(Export.MaxAttempts)) ==> !Proceeds(t[|t| - 1], env))
  {
    var polling := Export.PollFrom(env.polls, 0);
    StatusCallsStop(env, id);
    AppendStops(env, started, StatusCalls(id, polling.queries), polling.result != Err(TimedOut(Export.MaxAttempts)));
  }

  /** The status queries of the wait: at least one, every one but the last
      said to wait, and the last ended the wait unless it timed out. */
  lemma StatusCallsStop(env: Environment, id: string)
    ensures var polling := Export.PollFrom(env.polls, 0);
      var calls := StatusCalls(id, polling.queries);
      calls != [] &&
      (forall i :: 0 <= i < |calls| - 1 ==> Proceeds(calls[i], env)) &&
      (polling.result != Err(TimedOut(Export.MaxAttempts)) ==> !Proceeds(calls[|calls| - 1], env))
  {
    var polling := Export.PollFrom(env.polls, 0);
    Export.PollQueries(env.polls);
    var calls := StatusCalls(id, polling.queries);
    forall i | 0 <= i < |calls| - 1 ensures Proceeds(calls[i], env) {
      assert calls[i] == CallStatus(id, i);
    }
    if polling.result != Err(TimedOut(Export.MaxAttempts)) {
      assert calls[|calls| - 1] == CallStatus(id, polling.queries - 1);
    }
  }

  /** Calls that all proceeded, followed by calls of which all but the last
      proceeded, form a trace of which all but the last proceeded. */
  lemma AppendStops(env: Environment, started: seq<Call>, calls: seq<Call>, stopped: bool)
    requires AllProceed(started, env)
    requires calls != []
    requires forall i :: 0 <= i < |calls| - 1 ==> Proceeds(calls[i], env)
    requires stopped ==> !Proceeds(calls[|calls| - 1], env)
    ensures var t := started + calls;
      (forall i :: 0 <= i < |t| - 1 ==> Proceeds(t[i], env)) &&
      (stopped ==> !Proceeds(t[|t| - 1], env))
  {
    var t := started + calls;
    forall i | 0 <= i < |t| - 1 ensures Proceeds(t[i], env) {
      if i >= |started| {
        assert t[i] == calls[i - |started|];
      }
    }
    assert t[|t| - 1] == calls[|calls| - 1];
  }

  /** The membership payload sent is the projection of the filtered listing,
      one reference per selected operation, in order; it repeats no
      identifier when the listing repeats none. */
  lemma MembershipPayload(args: Args, env: Environment, refs: seq<OperationRef>)
    requires CallSetMembership(refs) in ReferenceRun(args, env).trace
    ensures Lister.ListFrom(env.pages, 0).result.Ok?
    ensures var selected := Filter.Filter(Lister.ListFrom(env.pages, 0).result.value, args.tagKey, args.tagValue);
      refs == Groups.Refs(selected) && Groups.RefIds(refs) == Ids(selected) &&
      (Distinct(Ids(Lister.ListFrom(env.pages, 0).result.value)) ==> Distinct(Groups.RefIds(refs)))
  {
    var s := ReferenceRun(args, env);
    var i :| 0 <= i < |s.trace| && s.trace[i] == CallSetMembership(refs);
    var listing := Lister.ListFrom(env.pages, 0);
    var listed := ListCalls(listing.requested);
    if ValidateArgs(args).Ok? && listing.result.Ok? {
      var ops := Filter.Filter(listing.result.value, args.tagKey, args.tagValue);
      if ops != [] {
        RecreateTail(args, env, ops, listed);
        assert refs == Groups.Refs(ops);
        assert Groups.RefIds(refs) == Ids(ops);
        if Distinct(Ids(listing.result.value)) {
          Filter.FilterKeepsDistinct(listing.result.value, args.tagKey, args.tagValue);
        }
      }
    }
  }

  /** A run writes a file only after a completed export: to the group name
      with the validated format as extension, holding exactly the artifact
      the status query returned. A successful run writes nothing only when
      the filter selected nothing. */
  lemma WrittenFile(args: Args, env: Environment)
    ensures var s := ReferenceRun(args, env);
      (s.exit.Done? && s.exit.file.Some? ==>
         ValidateArgs(args).Ok? &&
         s.exit.file.value.path == OutputPath(args.group, args.outputFormat) &&
         s.exit.file.value.path[|args.group|..] in {".yaml", ".json"} &&
         Export.PollFrom(env.polls, 0).result == Ok(s.exit.file.value.data)) &&
      (s.exit == Done(None) ==>
         ValidateArgs(args).Ok? && Lister.ListFrom(env.pages, 0).result.Ok? &&
         Filter.Filter(Lister.ListFrom(env.pages, 0).result.value, args.tagKey, args.tagValue) == [])
  {
    if ValidateArgs(args).Ok? {
      var listing := Lister.ListFrom(env.pages, 0);
      var listed := ListCalls(listing.requested);
      if listing.result.Ok? {
        var ops := Filter.Filter(listing.result.value, args.tagKey, args.tagValue);
        if ops != [] {
          assert ReferenceRun(args, env) == Recreate(args, env, ops, listed);
          RecreateWrites(args, env, ops, listed);
          OutputSuffix(args.group, args.outputFormat);
        }
      }
    }
  }

  /** After the listing, a run ends successfully only by writing the
      export's artifact to the output path. */
  lemma RecreateWrites(args: Args, env: Environment, ops: seq<Operation>, done: seq<Call>)
    ensures var s := Recreate(args, env, ops, done);
      s.exit.Done? ==>
        s.exit.file == Some(File(OutputPath(args.group, args.outputFormat), Export.PollFrom(env.polls, 0).result.value)) &&
        Export.PollFrom(env.polls, 0).result.Ok?
  {
    if args.force && Groups.GroupExists(env.probe).Ok? {
      var e := done + [CallExists];
      if Groups.GroupExists(env.probe).value {
        if Groups.DeleteGroup(env.deletion).Ok? {
          PopulateWrites(args, env, ops, e + [CallDelete]);
        }
      } else {
        PopulateWrites(args, env, ops, e);
      }
    } else if !args.force {
      PopulateWrites(args, env, ops, done);
    }
  }

  lemma PopulateWrites(args: Args, env: Environment, ops: seq<Operation>, done: seq<Call>)
    ensures var s := Populate(args, env, ops, done);
      s.exit.Done? ==>
        s.exit.file == Some(File(OutputPath(args.group, args.outputFormat), Export.PollFrom(env.polls, 0).result.value)) &&
        Export.PollFrom(env.polls, 0).result.Ok?
  {
  }

  /** The output path of a valid format ends in `.yaml` or `.json`. */
  lemma OutputSuffix(group: string, format: string)
    requires format in {"yaml", "json"}
    ensures OutputPath(group, format)[|group|..] in {".yaml", ".json"}
  {
    var path := OutputPath(group, format);
    assert path[|group|..] == [path[|group|]] + path[|group| + 1..];
    assert path[|group|..] == "." + format;
    if format == "yaml" {
      assert "." + format == ".yaml";
    } else {
      assert "." + format == ".json";
    }
  }

  /** The lifecycle of a forced recreation when every call succeeds: the
      listing, then probe, delete, create, set membership and start export,
      each exactly once and in that order, then the status queries. */
  lemma ForcedRecreation(args: Args, env: Environment, id: string)
    requires ValidateArgs(args).Ok? && args.force
    requires Lister.ListFrom(env.pages, 0).result.Ok?
    requires Filter.Filter(Lister.ListFrom(env.pages, 0).result.value, args.tagKey, args.tagValue) != []
    requires env.probe == Groups.Status(StatusOK) && env.deletion == Groups.Status(StatusNoContent)
    requires env.creation == Groups.Status(StatusCreated) && env.update == Groups.Status(StatusNoContent)
    requires env.start == Export.StartHttp(StatusAccepted, Some(id))
    ensures var ops := Filter.Filter(Lister.ListFrom(env.pages, 0).result.value, args.tagKey, args.tagValue);
      ReferenceRun(args, env).trace ==
        ListCalls(Lister.ListFrom(env.pages, 0).requested) +
        [CallExists, CallDelete, CallCreate, CallSetMembership(Groups.Refs(ops)), CallStartExport(args.outputFormat)] +
        StatusCalls(id, Export.PollFrom(env.polls, 0).queries)
  {
    var listed := ListCalls(Lister.ListFrom(env.pages, 0).requested);
    var ops := Filter.Filter(Lister.ListFrom(env.pages, 0).result.value, args.tagKey, args.tagValue);
    var middle := [CallExists, CallDelete, CallCreate, CallSetMembership(Groups.Refs(ops)), CallStartExport(args.outputFormat)];
    assert listed + [CallExists] + [CallDelete] + [CallCreate] + [CallSetMembership(Groups.Refs(ops))]
           + [CallStartExport(args.outputFormat)] == listed + middle;
  }
}

=== FILE: types.dfy ===
/** The entities the tool exchanges with the documentation service, and the
    ways a step of the workflow can fail. */
module Types {

  /** The HTTP status codes the tool tests for. */
  const StatusOK := 200
  const StatusCreated := 201
  const StatusAccepted := 202
  const StatusNoContent := 204
  const StatusNotFound := 404

  /** An element of a heterogeneous JSON list: a string, or any value that is
      not a string (number, boolean, object, null, nested list). */
  datatype Elem = StrElem(s: string) | NonStr

  /** The dynamic shape of a custom-tag value (`any` in the source):
      a single string, a `[]string`, a `[]interface{}`, or anything else. */
  datatype TagValue =
    | Str(v: string)
    | StrList(vs: seq<string>)
    | AnyList(es: seq<Elem>)
    | Other

  /** An API operation as listed by the service. A missing or null
      `customTags` object is the empty map. */
  datatype Operation = Operation(
    operationId: string,
    customTags: map<string, TagValue>,
    packageRef: string)

  /** The projection of an operation sent back when the membership of a group
      is replaced. */
  datatype OperationRef = OperationRef(operationId: string)

  /** Why a step failed. */
  datatype Error =
    | Transport                        // request could not be built or sent, or the body not read
    | UnexpectedStatus(code: int)      // the service answered with another status code
    | Malformed                        // a JSON body could not be decoded
    | ServiceReported(message: string) // the export status object said "error"
    | ExportFailed                     // status "error" reaching the poll loop
    | ExportDataEmpty                  // "completed" without a body
    | TimedOut(attempts: nat)          // the poll budget ran out
    | MissingParameters
    | InvalidFormat

  /** The identifiers of a list of operations, in order. */
  function Ids(ops: seq<Operation>): (ids: seq<string>)
    ensures |ids| == |ops|
    ensures forall i :: 0 <= i < |ops| ==> ids[i] == ops[i].operationId
  {
    seq(|ops|, i requires 0 <= i < |ops| => ops[i].operationId)
  }

  /** No identifier occurs twice. */
  predicate Distinct(ids: seq<string>)
  {
    forall i, j :: 0 <= i < j < |ids| ==> ids[i] != ids[j]
  }

  /** The text of an error. The source fixes the wording of a service-reported
      error, "export failed", "export data is empty", the timeout and the two
      argument errors; for the others it prints the status code and body or a
      library's error text, which are not modelled, and the texts here are
      placeholders. */
  function Describe(e: Error): (text: string)
    ensures e.ServiceReported? ==> |e.message| <= |text| && text[|text| - |e.message|..] == e.message
  {
    match e
    case ServiceReported(m) => "response message: " + m
    case ExportFailed => "export failed"
    case ExportDataEmpty => "export data is empty"
    case TimedOut(_) => "export timed out after 30 attempts"
    case MissingParameters => "Missing required parameters"
    case InvalidFormat => "Invalid output format"
    case UnexpectedStatus(_) => "unexpected status"
    case Malformed => "malformed response"
    case Transport => "transport failure"
  }
}

=== FILE: wrappers.dfy ===
/** Optional values and results with an error, as returned by the Go functions'
    `(value, error)` pairs. */
module Wrappers {

  datatype Option<+T> = None | Some(value: T)

  datatype Result<+T, +E> = Ok(value: T) | Err(error: E)
}
